=== FILE: README.md ===
# Portal placement, trigger volumes and the load-game list — a Dafny model

This project models three pieces of sequential decision logic from a 3D portal puzzle game's runtime:

- **The scene orchestrator** (`src/scene/scene.c`):
  - placing a portal on the first level surface slot that fits (`sceneOpenPortal`);
  - firing a portal from the player's aim (`sceneFirePortal`);
  - the button-to-portal mapping (`sceneCheckPortals`);
  - the portal-ordering pass of `sceneRenderWithProperties`;
  - the fixed per-frame call order of `sceneUpdate`.
- **Trigger listeners** (`src/scene/trigger_listener.c`). A kinematic box is built from a level trigger. It re-checks that an entering object is really contained, classifies the object with the test as written, and sends each matching rule's signal and then its cutscene call, rule by rule in the order the rules are declared. The same dispatch under the intended classification is modelled alongside (see "## Findings").
- **The load-game menu** (`src/menu/load_game.c`). It fills the save list from the save slots. It also handles load (A) and delete (Z), and adjusts the selected entry after a delete.

Everything is an immutable value and every operation is a pure function. Each operation returns the new state together with an ordered trace of its side effects: sounds, surface-generation calls, subsystem updates, signals, cutscene calls and save-file calls.

The geometry and I/O the core depends on are oracles:
- the raycast (`Scene.Raycaster`);
- `levelQuadIndex` and `portalSurfaceGenerate` (fields of `Scene.Level`);
- room visibility (a predicate passed to the render pass);
- the results of save-file reads.

Vectors are over `real`. A rotation built by `quatLook(forward, up)` is kept as its two arguments (`Geometry.Look`). Placement only ever chooses those two arguments.

Modules: `Wrappers` (Option), `Geometry`, `Scene`, `SceneRender`, `SceneUpdate`, `TriggerListener`, `LoadGame`.

The render pass names the portal it visits first `closerPortal`, but `src/scene/scene.c:100` makes that portal 0 only when portal 0 is strictly *farther* from the camera than portal 1; on a tie, portal 1 goes first. So the first portal visited is always the one at the larger squared distance, whatever the variable's name suggests. The model follows the code, and `SceneRender.FirstVisited` states exactly this.

## Model

| member | source | states |
|---|---|---|
| `Scene.FindSurface` | src/scene/scene.c:267-276 | First-fit slot search over `[min, max)`. The slot found is the least one whose surface generation succeeds, and no slot fits when none is found. The slots tried run from `min` without gaps up to the one found, or cover the whole range if none fits. An empty range tries nothing. |
| `Scene.OpenPortal` | src/scene/scene.c:264-279 | Succeeds iff some slot of the quad's range fits. On success: the portal's transform becomes `at` and its parity is kept; the table entry refers to that portal; its room is `roomIndex`; the trace is the attempts from `min` up to the fitting slot, then exactly one open sound. On failure, including an empty range: the scene is unchanged and there is no sound. The other portal's entries are unchanged in both cases. |
| `Scene.PortalLocation` | src/scene/scene.c:245-259 | The candidate portal transform. Its position is the hit point and its scale is one. It faces along the hit normal, or against it for portal 1. Its up vector is world up when the normal's vertical component has magnitude below 0.8, and the player's up otherwise. |
| `Scene.PortalPairFacesOpposite` | src/scene/scene.c:247-259 | For the same hit, portals 0 and 1 share position and up vector and face exactly opposite ways. |
| `Scene.FirePortal` | src/scene/scene.c:232-262 | A raycast miss, or a hit on an object whose quad index is -1, returns failure with no change and an empty trace. Every hit on a quad is handed to `OpenPortal` with the portal placed at `PortalLocation` of the hit, the quad's index and the hit's room. So the portal is placed iff the hit is on a quad and some slot of that quad fits a portal at `PortalLocation`. When placed, it sits there, its entry is set, and its room is the hit's room. The other portal is never touched. The trace holds only surface attempts and the open sound. |
| `Scene.CheckPortals` | src/scene/scene.c:185-200 | Z is the only way portal 0 can change, and R/L the only way portal 1 can. With neither pressed nothing happens. With Z alone the result is exactly firing portal 0 on the current scene. Portal 0's attempt comes first in the trace. Portal 1 is fired on the scene that portal 0's attempt left, and its events end the trace. The trace's length is the sum of the attempts made, so it holds nothing else. |
| `Scene.ThirdSlotScenario` | src/scene/scene.c:253-275 | Fire at a wall with three candidate slots where only the third fits. Portal 0 opens at the hit point, facing the normal with world up. The trace is the three attempts followed by one sound. |
| `SceneRender.FirstVisited` | src/scene/scene.c:100-101 | The portal visited first is never nearer to the camera than the other one. On equal squared distances it is portal 1. |
| `SceneRender.RenderPortals` | src/scene/scene.c:100-119 | Each portal is rendered at most once. A portal is rendered iff three things hold: its table entry is set, it is not `fromPortalIndex`, and its room is visible. The counterpart passed is the other portal if that portal is open, and null otherwise. When both are rendered, the first visited goes first. |
| `SceneUpdate.Update` | src/scene/scene.c:202-230 | The frame's trace never returns to an earlier stage. The order is: reset signals, update the player, portal firing, cubes, buttons, doors, dynamics, level triggers, cutscene runner. Every cube, button and door index is updated exactly once, and no index out of range appears. Each single step occurs exactly once. Cubes, buttons and doors are each updated in ascending index order. The trace's length is five plus portal firing's events plus one per entity, so it holds nothing else. The portal state and the side effects of portal firing are those of `CheckPortals`, placed right after the player update. |
| `TriggerListener.Init` | src/scene/trigger_listener.c:57-80 | Half-extents are (max − min)/2 on each axis and the centre is (max + min)/2. The collider is a box with zero bounce and friction. The body is kinematic, the trigger callback is installed, and the trigger and index are stored. The object is registered with the collision scene exactly once. |
| `TriggerListener.InitRecoversBox` | src/scene/trigger_listener.c:58-71 | Centre minus half-extents gives the box's min corner, and centre plus half-extents gives its max corner. |
| `TriggerListener.ContainedIffInBox` | src/scene/trigger_listener.c:28-40 | For an initialised listener, the containment re-check accepts a position iff it lies in the trigger's closed box. This holds on all three axes, boundary included. |
| `TriggerListener.OutsideBoxSuppresses` | src/scene/trigger_listener.c:35-40 | Leaving the box on any single axis suppresses every signal and cutscene call, under either classification. |
| `TriggerListener.DetermineTypeAsWritten` | src/scene/trigger_listener.c:9-21 | The literal test. The result is Player iff the object is the player collider, whatever its decor id. A non-player object with id `DECOR_TYPE_CUBE` is Cube. The result is None iff three things hold: the object is not the player, its id is not `DECOR_TYPE_CUBE`, and `DECOR_TYPE_CUBE_UNIMPORTANT` is 0. With a nonzero constant, every non-player object is Cube. |
| `TriggerListener.DetermineType` | src/scene/trigger_listener.c:9-21 | The intended classification. The player collider is Player. Other objects are Cube iff their id is one of the two cube ids, and None otherwise. |
| `TriggerListener.AsWrittenMisclassifies` | src/scene/trigger_listener.c:14-20 | For any two distinct cube ids, some object is classified differently by the written test and the intended one. |
| `TriggerListener.AsWrittenAgreesOnPlayerAndCube` | src/scene/trigger_listener.c:10-17 | The two classifications agree on the player collider and on ordinary cubes. |
| `TriggerListener.Dispatch` | src/scene/trigger_listener.c:44-54 | The rule loop equals the reference `Effects` of the matching rules: each matching rule, in declared order, sends its signal if it has one and then triggers its cutscene, before the next rule acts. The trace is empty iff no rule's filter equals the type. No signal -1 is ever sent. Every cutscene call carries the listener's trigger index. There are at most two events per rule. |
| `TriggerListener.DispatchCutscenes` | src/scene/trigger_listener.c:44-53 | The cutscene calls are exactly the matching rules' cutscene indices, in declared order and without de-duplication. Rules without a signal are included. |
| `TriggerListener.DispatchSignals` | src/scene/trigger_listener.c:44-50 | The signals sent are exactly those of the matching rules whose signal is not -1, in declared order. |
| `TriggerListener.TriggerAs` | src/scene/trigger_listener.c:28-54 | For an object already classified: if it is not contained, nothing happens. Otherwise the trace is `Effects` of the rules matching the classification, with those rules' cutscene indices and assigned signals in declared order, each cutscene call carrying the listener's trigger index. |
| `TriggerListener.TriggerTrigger` | src/scene/trigger_listener.c:23-55 | `triggerTrigger` as written. An object that is not contained causes no effect. Otherwise the trace is `Effects` of the rules matching the literal line-16 classification. So with a nonzero unimportant-cube constant, every contained non-player object fires the cube rules. |
| `TriggerListener.TriggerTriggerIntended` | src/scene/trigger_listener.c:23-55 | `triggerTrigger` with the intended classification. An object that is not contained causes no effect. Otherwise the trace is `Effects` of the rules matching `DetermineType`. A non-player object that is neither cube fires only the rules for type None. |
| `TriggerListener.AsWrittenFiresCubeRule` | src/scene/trigger_listener.c:16-53 | A contained non-player decor object that is neither cube, facing one cube rule without a signal, triggers that rule's cutscene as written, and nothing under the intended classification. This holds whenever the unimportant-cube constant is nonzero. |
| `LoadGame.Populate` | src/menu/load_game.c:17-38 | Exactly one entry per save slot, with the count handed over. Entry i copies slot i's slot index and chamber number and addresses that slot's screenshot. Its name is the autosave string iff the slot is 0, and null otherwise. No entry is free. |
| `LoadGame.PopulateRoundTrip` | src/menu/load_game.c:23-25 | Reading the slot index and chamber number back out of the entries gives the slot list exactly. |
| `LoadGame.Update` | src/menu/load_game.c:40-72 | With no saves nothing is loaded or deleted. A takes priority: the trace is exactly the load from the named slot, the queueing of the level mapped from the loaded chamber, the checkpoint use, the click sound and the list update, in that order, and the current test subject is set. Z alone: the trace is exactly the delete of the selected entry's slot, the click sound and the list update. The list becomes the repopulated one, with the load-game title and load label, and only the selection is adjusted. It then moves the selection down by one iff it is ≥ the new count, and keeps it otherwise. A load and a delete never happen in the same frame. The list update always runs last. |
| `LoadGame.UpdateKeepsListValid` | src/menu/load_game.c:56-65 | Suppose a delete removes exactly one save. Then the selection still names an entry of the new list, or it is -1 exactly when the list became empty. |
| `LoadGame.DeleteLastLeavesMinusOne` | src/menu/load_game.c:56-65 | Deleting the only save, selected at index 0, leaves the selection at -1. |

## Findings

| source | as written | input that shows it | evidently intended | confidence | as-written member | corrected member |
|---|---|---|---|---|---|---|
| src/scene/trigger_listener.c:16 | the test is `decorType == DECOR_TYPE_CUBE`, or-ed with the bare constant `DECOR_TYPE_CUBE_UNIMPORTANT` | If the constant is nonzero: a non-player decor object whose id is neither cube id (a cylinder, say) is classified Cube and fires the cube rules. If it is zero: an unimportant cube is classified None. | `decorType == DECOR_TYPE_CUBE`, or-ed with `decorType == DECOR_TYPE_CUBE_UNIMPORTANT` | not executed; high (the written test is wrong for every pair of distinct constant values) | `TriggerListener.DetermineTypeAsWritten`, `TriggerListener.AsWrittenMisclassifies`, `TriggerListener.TriggerTrigger`, `TriggerListener.AsWrittenFiresCubeRule` | `TriggerListener.DetermineType`, used by `TriggerListener.TriggerTriggerIntended` |

## Left out

- `sceneInit` is not modelled: its allocation, entity set-up and portal parity initialisation. It also writes `decor[0]` into a zero-length allocation, which is not modelled. The model starts from any well-formed scene.
- Rendering plumbing is not modelled: `sceneRender`, `sceneRenderPortalGun`, `sceneRenderPerformanceMetrics`, `staticRender`, `loadGameRender` and display-list emission.
- `portalRender` is not modelled, and neither is the recursion it makes back into `sceneRenderWithProperties`. `src/scene/portal.c` is not part of this model, so the bound on recursion depth across nested views is not stated. Only the order and conditions of one pass are.
- Raycasting, `levelQuadIndex`, `portalSurfaceGenerate` and `staticRenderIsRoomVisible` are oracles. So is the visible-room mask of `staticRenderDetermineVisibleRooms`. Their sources are not part of this model.
- Quaternion and float math is not modelled. The aim ray and player-up vector that `sceneCheckPortals` derives with `quatMultVector` are inputs (`Scene.Aim`). Vectors use exact reals.
- Frame timing is not modelled: `osGetTime`, `lastFrameTime` and `cpuTime`.
- `MAX_CUBES` is defined outside the modelled files. The number of cubes is a parameter (`SceneUpdate.Entities`).
- Signals, the cutscene runner, and the player, cube, button, door and dynamics updates are trace events only. Their internals are not part of this model. So is the per-frame clearing of signals (signals are external code).
- Sound playback, `savefileLoadGame`, `savefileDeleteGame`, `checkpointUse` and `levelQueueLoad` are foreign calls. They appear as trace events, and what `savefileLoadGame` reads is an input (`LoadGame.Storage`).
- Controller state, the save list `savefileListSaves` reports, the slot `savefileGetSlot` names and the strings `translationsGet` returns are inputs only, with no trace event: `Scene.Buttons`, `LoadGame.Input`, `LoadGame.Storage` and `LoadGame.TextId`.
- `LoadGame.Update`: which slot `savefileGetSlot` names is an input. It is not tied to the selected entry, because that function is not part of this model.
- `LoadGame.Populate` leaves the selection as it was. What `savefileUseList` does with the selection is not part of this model. `loadGameUpdate` overwrites the selection after a delete anyway.
- `LoadGame.Update` does not model the input capture that `savefileListUpdate` returns, or any cursor movement it makes.
- `LoadGame.Update` does not model 16-bit truncation of `short selectedSaveIndex`. Save counts are bounded by the number of save slots, far below 32768.
- `loadGameMenuInit` only stores a pointer, so it is not modelled. The same goes for the stack allocation of the checkpoint buffer.
- `TriggerListener.Init` does not model the mass, the collision layers, or the bounding-box refresh that `collisionObjectInit` and `collisionObjectUpdateBB` perform. Those are collision-scene internals.

=== FILE: geometry.dfy ===
/**
 Vectors and transforms of the game's math library, over `real`.
 Floating-point precision is not modelled. Rotations are kept symbolic:
 a quaternion built by `quatLook(forward, up)` is represented by its two
 arguments, since the scene logic only ever chooses those arguments.
 */
module Geometry {

  datatype Vec3 = Vec3(x: real, y: real, z: real)

  /** `gOneVec`. */
  const One: Vec3 := Vec3(1.0, 1.0, 1.0)

  /** `gUp`, the world's up direction. */
  const WorldUp: Vec3 := Vec3(0.0, 1.0, 0.0)

  function Add(a: Vec3, b: Vec3): Vec3 {
    Vec3(a.x + b.x, a.y + b.y, a.z + b.z)
  }

  function Sub(a: Vec3, b: Vec3): Vec3 {
    Vec3(a.x - b.x, a.y - b.y, a.z - b.z)
  }

  function Scale(a: Vec3, k: real): Vec3 {
    Vec3(a.x * k, a.y * k, a.z * k)
  }

  function Negate(a: Vec3): Vec3 {
    Vec3(-a.x, -a.y, -a.z)
  }

  /** `fabsf`. */
  function Abs(r: real): real {
    if r < 0.0 then -r else r
  }

  /** `vector3DistSqrd`. */
  function DistSqrd(a: Vec3, b: Vec3): real {
    var d := Sub(a, b);
    d.x * d.x + d.y * d.y + d.z * d.z
  }

  /** The unit quaternion `quatLook` builds, kept as its two arguments. */
  datatype Rotation = Look(forward: Vec3, up: Vec3)

  datatype Transform = Transform(position: Vec3, rotation: Rotation, scale: Vec3)
}

=== FILE: load_game.dfy ===
/**
 The load-game menu (`src/menu/load_game.c`): filling the save list from
 the save slots, and the per-frame load / delete handling with its
 adjustment of the selected entry. Save-file reads and writes, level
 loading and sound are calls out of the model; their results are inputs
 and the calls appear in the returned trace.
 */
module LoadGame {
  import opened Wrappers

  /** What `savefileListSaves` reports for one occupied slot. */
  datatype SaveSlotInfo = SaveSlotInfo(saveSlot: int, testChamber: int)

  /** Strings fetched with `translationsGet`. */
  datatype TextId = GameUiAutosave | GameUiLoadGame | GameUiLoad

  /** One entry of the list; `screenshotSlot` is the slot `SCREEN_SHOT_SRAM` addresses. */
  datatype SavefileInfo = SavefileInfo(
    slotIndex: int,
    testchamberDisplayNumber: int,
    savefileName: Option<TextId>,
    screenshotSlot: int,
    isFree: bool)

  datatype SavefileList = SavefileList(
    title: TextId,
    confirmLabel: TextId,
    savefileInfo: seq<SavefileInfo>,
    numberOfSaves: int,
    selectedSave: int)

  /** The list holds `numberOfSaves` entries and, when non-empty, the selection is one of them. */
  predicate ListValid(l: SavefileList) {
    && l.numberOfSaves == |l.savefileInfo|
    && (l.numberOfSaves > 0 ==> 0 <= l.selectedSave < l.numberOfSaves)
  }

  function Entry(slot: SaveSlotInfo): SavefileInfo {
    SavefileInfo(
      slot.saveSlot,
      slot.testChamber,
      if slot.saveSlot == 0 then Some(GameUiAutosave) else None,
      slot.saveSlot,
      false)
  }

  /**
   `loadGamePopulate`, given what `savefileListSaves` returned. The list is
   handed over through `savefileUseList`; the selection is left as it was.
   */
  function Populate(l: SavefileList, saves: seq<SaveSlotInfo>): (r: SavefileList)
    ensures r.numberOfSaves == |saves| == |r.savefileInfo|
    ensures forall i :: 0 <= i < |saves| ==>
      && r.savefileInfo[i].slotIndex == saves[i].saveSlot
      && r.savefileInfo[i].testchamberDisplayNumber == saves[i].testChamber
      && r.savefileInfo[i].screenshotSlot == saves[i].saveSlot
      && !r.savefileInfo[i].isFree
    ensures forall i :: 0 <= i < |saves| ==>
      (r.savefileInfo[i].savefileName == Some(GameUiAutosave) <==> saves[i].saveSlot == 0)
    ensures forall i :: 0 <= i < |saves| ==>
      (r.savefileInfo[i].savefileName == None <==> saves[i].saveSlot != 0)
    ensures r.title == GameUiLoadGame && r.confirmLabel == GameUiLoad
    ensures r.selectedSave == l.selectedSave
  {
    var entries := seq(|saves|, i requires 0 <= i < |saves| => Entry(saves[i]));
    SavefileList(GameUiLoadGame, GameUiLoad, entries, |saves|, l.selectedSave)
  }

  /** The slot record an entry was built from. */
  function SlotOf(e: SavefileInfo): SaveSlotInfo {
    SaveSlotInfo(e.slotIndex, e.testchamberDisplayNumber)
  }

  /** The entries of a populated list give back the save slots they came from. */
  lemma PopulateRoundTrip(l: SavefileList, saves: seq<SaveSlotInfo>)
    ensures var entries := Populate(l, saves).savefileInfo;
      seq(|entries|, i requires 0 <= i < |entries| => SlotOf(entries[i])) == saves
  {
  }

  /** Buttons pressed this frame. */
  datatype Input = Input(aButton: bool, zTrig: bool)

  /**
   Results of the save-file calls this frame: the slot `savefileGetSlot`
   names, the chamber and subject `savefileLoadGame` reads from it, the slot
   list `savefileListSaves` reports after a delete, and the level index
   `getLevelIndexFromChamberDisplayNumber` maps a chamber to.
   */
  datatype Storage = Storage(
    selectedSlot: int,
    loadedChamber: int,
    loadedSubject: int,
    savesAfterDelete: seq<SaveSlotInfo>,
    levelForChamber: int -> int)

  datatype MenuEvent =
    | LoadFromSlot(slot: int)
    | LevelQueueLoad(level: int)
    | CheckpointUse
    | DeleteSlot(slot: int)
    | PlayButtonClickRelease
    | ListUpdate

  datatype Menu = Menu(list: SavefileList, currentTestSubject: int)

  datatype Updated = Updated(menu: Menu, events: seq<MenuEvent>)

  /** The selection after a delete, once the list holds `count` saves. */
  function AdjustSelection(selected: int, count: int): int {
    if selected >= count then selected - 1 else selected
  }

  /** `loadGameUpdate`; the input capture `savefileListUpdate` returns is not modelled. */
  function Update(m: Menu, input: Input, io: Storage): (r: Updated)
    requires m.list.numberOfSaves != 0 && !input.aButton && input.zTrig ==>
      0 <= m.list.selectedSave < |m.list.savefileInfo|
    ensures |r.events| > 0 && r.events[|r.events| - 1] == ListUpdate
    ensures m.list.numberOfSaves == 0 ==> r == Updated(m, [ListUpdate])
    ensures !input.aButton && !input.zTrig ==> r == Updated(m, [ListUpdate])
    ensures !((exists e :: e in r.events && e.LoadFromSlot?) && (exists e :: e in r.events && e.DeleteSlot?))
    // A: load, which wins over Z
    ensures m.list.numberOfSaves != 0 && input.aButton ==>
      && r.menu == m.(currentTestSubject := io.loadedSubject)
      && LoadFromSlot(io.selectedSlot) in r.events
      && LevelQueueLoad(io.levelForChamber(io.loadedChamber)) in r.events
      && (forall e :: e in r.events ==> !e.DeleteSlot?)
      // load, queue the level, use the checkpoint, click, then the list update: nothing else
      && |r.events| == 5
      && r.events[0] == LoadFromSlot(io.selectedSlot)
      && r.events[1] == LevelQueueLoad(io.levelForChamber(io.loadedChamber))
      && r.events[2] == CheckpointUse
      && r.events[3] == PlayButtonClickRelease
    // Z alone: delete the selected entry's slot, repopulate, adjust the selection
    ensures m.list.numberOfSaves != 0 && !input.aButton && input.zTrig ==>
      var selected := m.list.selectedSave;
      var count := |io.savesAfterDelete|;
      && DeleteSlot(m.list.savefileInfo[selected].slotIndex) in r.events
      // exactly one delete, of the selected entry's slot, then the click and the list update
      && |r.events| == 3
      && r.events[0] == DeleteSlot(m.list.savefileInfo[selected].slotIndex)
      && r.events[1] == PlayButtonClickRelease
      && (forall e :: e in r.events ==> !e.LoadFromSlot? && !e.LevelQueueLoad?)
      && r.menu.currentTestSubject == m.currentTestSubject
      && r.menu.list.savefileInfo == Populate(m.list, io.savesAfterDelete).savefileInfo
      // the whole list is the repopulated one, labels included; only the selection is adjusted
      && r.menu.list == Populate(m.list, io.savesAfterDelete).(selectedSave := r.menu.list.selectedSave)
      && r.menu.list.title == GameUiLoadGame && r.menu.list.confirmLabel == GameUiLoad
      && r.menu.list.numberOfSaves == count
      && (r.menu.list.selectedSave == selected - 1 <==> selected >= count)
      && (r.menu.list.selectedSave == selected <==> selected < count)
  {
    if m.list.numberOfSaves != 0 && input.aButton then
      Updated(
        m.(currentTestSubject := io.loadedSubject),
        [LoadFromSlot(io.selectedSlot), LevelQueueLoad(io.levelForChamber(io.loadedChamber)),
         CheckpointUse, PlayButtonClickRelease, ListUpdate])
    else if m.list.numberOfSaves != 0 && input.zTrig then
      var selected := m.list.selectedSave;
      var slot := m.list.savefileInfo[selected].slotIndex;
      var repopulated := Populate(m.list, io.savesAfterDelete);
      var list' := repopulated.(selectedSave := AdjustSelection(selected, repopulated.numberOfSaves));
      Updated(m.(list := list'), [DeleteSlot(slot), PlayButtonClickRelease, ListUpdate])
    else
      Updated(m, [ListUpdate])
  }

  /**
   When a delete removes exactly one save, the list stays well formed: the
   selection still names an entry, or is -1 exactly when the list emptied.
   */
  lemma UpdateKeepsListValid(m: Menu, input: Input, io: Storage)
    requires ListValid(m.list)
    requires |io.savesAfterDelete| == m.list.numberOfSaves - 1
    ensures var r := Update(m, input, io);
      && ListValid(r.menu.list)
      && (m.list.numberOfSaves != 0 && !input.aButton && input.zTrig ==>
            (r.menu.list.selectedSave == -1 <==> r.menu.list.numberOfSaves == 0))
  {
  }

  /** Deleting the only save, selected at index 0, leaves the selection at -1. */
  lemma DeleteLastLeavesMinusOne(m: Menu, io: Storage)
    requires m.list.numberOfSaves == 1 && |m.list.savefileInfo| == 1 && m.list.selectedSave == 0
    requires io.savesAfterDelete == []
    ensures Update(m, Input(false, true), io).menu.list.selectedSave == -1
  {
  }
}

=== FILE: scene.dfy ===
/**
 Portal placement in the scene orchestrator (`src/scene/scene.c`).

 The two portals, the collision scene's per-portal table and the level's
 portal-surface data are immutable values; every operation returns the new
 scene together with the ordered trace of the side effects it performs.
 Raycasting, `levelQuadIndex` and `portalSurfaceGenerate` are oracles.
 */
module Scene {
  import opened Wrappers
  import opened Geometry

  datatype Sound = PortalOpen2

  /** Calls into collaborators, in the order the scene issues them. */
  datatype SceneEvent =
    | TrySurface(slot: int)          // portalSurfaceGenerate on level portal surface `slot`
    | PlaySound(sound: Sound)
    | SignalsReset
    | PlayerUpdate
    | CubeUpdate(cube: int)
    | ButtonUpdate(button: int)
    | DoorUpdate(door: int)
    | UpdateDynamics
    | CheckTriggers
    | CutsceneRunnerUpdate

  /** A placed portal; portal 1 has odd parity. */
  datatype Portal = Portal(transform: Transform, oddParity: bool)

  /**
   The collision scene's portal table. `portalTransforms[i]` is the null
   pointer (None) while portal i is unopened and otherwise refers to the
   transform of portal `value`; `portalRooms[i]` is the room it sits in.
   */
  datatype CollisionScene = CollisionScene(portalTransforms: seq<Option<int>>, portalRooms: seq<int>)

  datatype Scene = Scene(portals: seq<Portal>, collision: CollisionScene) {

    /** Two portals, two table entries, and each set entry refers to its own portal. */
    predicate Valid() {
      && |portals| == 2
      && |collision.portalTransforms| == 2
      && |collision.portalRooms| == 2
      && forall i :: 0 <= i < 2 ==> collision.portalTransforms[i] == None || collision.portalTransforms[i] == Some(i)
    }

    predicate IsOpen(i: int)
      requires Valid() && 0 <= i < 2
    {
      collision.portalTransforms[i].Some?
    }
  }

  /** Everything the scene holds about portal `i` is the same in `s` and `s'`. */
  predicate SameEntries(s: Scene, s': Scene, i: int)
    requires s.Valid() && s'.Valid() && 0 <= i < 2
  {
    && s'.portals[i] == s.portals[i]
    && s'.collision.portalTransforms[i] == s.collision.portalTransforms[i]
    && s'.collision.portalRooms[i] == s.collision.portalRooms[i]
  }

  /** The candidate portal-surface slots `[minPortalIndex, maxPortalIndex)` of one level quad. */
  datatype SurfaceMapping = SurfaceMapping(minPortalIndex: int, maxPortalIndex: int)

  /**
   Static level data. `quadIndex` is `levelQuadIndex` (-1 for an object that
   is not a level quad); `surfaceGenerate(i, at)` is whether
   `portalSurfaceGenerate` fits a portal at `at` on portal surface `i`.
   */
  datatype Level = Level(
    portalSurfaceMapping: seq<SurfaceMapping>,
    quadIndex: int -> int,
    surfaceGenerate: (int, Transform) -> bool)
  {
    /** Every quad a raycast can hit has a surface mapping. */
    ghost predicate Valid() {
      forall o :: quadIndex(o) == -1 || 0 <= quadIndex(o) < |portalSurfaceMapping|
    }
  }

  /** The slots a search asked about, in order, and the slot that fitted. */
  datatype SlotSearch = SlotSearch(tried: seq<int>, found: Option<int>)

  /**
   First-fit search over `[lo, hi)`: `found` is the least slot that fits, and
   the slots tried are exactly those from `lo` up to it (all of them when
   none fits; none when the range is empty).
   */
  function FindSurface(generate: (int, Transform) -> bool, at: Transform, lo: int, hi: int): (r: SlotSearch)
    decreases hi - lo
    ensures r.found.Some? ==> lo <= r.found.value < hi && generate(r.found.value, at)
    ensures r.found.Some? ==> forall j :: lo <= j < r.found.value ==> !generate(j, at)
    ensures r.found.None? ==> forall j :: lo <= j < hi ==> !generate(j, at)
    ensures forall k :: 0 <= k < |r.tried| ==> r.tried[k] == lo + k
    ensures |r.tried| == if r.found.Some? then r.found.value - lo + 1 else if lo < hi then hi - lo else 0
  {
    if lo >= hi then SlotSearch([], None)
    else if generate(lo, at) then SlotSearch([lo], Some(lo))
    else
      var rest := FindSurface(generate, at, lo + 1, hi);
      SlotSearch([lo] + rest.tried, rest.found)
  }

  function Attempts(slots: seq<int>): seq<SceneEvent> {
    seq(|slots|, k requires 0 <= k < |slots| => TrySurface(slots[k]))
  }

  /** Result of a placement attempt: the returned flag, the new scene, the trace. */
  datatype Placement = Placement(placed: bool, scene: Scene, events: seq<SceneEvent>)

  /** `sceneOpenPortal`. */
  function OpenPortal(s: Scene, level: Level, at: Transform, portalIndex: int, quadIndex: int, roomIndex: int): (r: Placement)
    requires s.Valid()
    requires 0 <= portalIndex < 2
    requires 0 <= quadIndex < |level.portalSurfaceMapping|
    ensures r.scene.Valid()
    ensures var m := level.portalSurfaceMapping[quadIndex];
      r.placed <==> exists i :: m.minPortalIndex <= i < m.maxPortalIndex && level.surfaceGenerate(i, at)
    ensures r.placed ==>
      && r.scene.portals[portalIndex] == s.portals[portalIndex].(transform := at)
      && r.scene.collision.portalTransforms[portalIndex] == Some(portalIndex)
      && r.scene.collision.portalRooms[portalIndex] == roomIndex
    ensures SameEntries(s, r.scene, 1 - portalIndex)
    ensures !r.placed ==> r.scene == s
    // the trace: surfaces tried in increasing order from minPortalIndex, then one sound on success
    ensures var m := level.portalSurfaceMapping[quadIndex];
      forall k :: 0 <= k < |r.events| && (!r.placed || k < |r.events| - 1) ==>
        r.events[k] == TrySurface(m.minPortalIndex + k)
    ensures r.placed ==> |r.events| >= 2 && r.events[|r.events| - 1] == PlaySound(PortalOpen2)
    ensures var m := level.portalSurfaceMapping[quadIndex];
      r.placed ==>
        && level.surfaceGenerate(m.minPortalIndex + |r.events| - 2, at)
        && forall j :: m.minPortalIndex <= j < m.minPortalIndex + |r.events| - 2 ==> !level.surfaceGenerate(j, at)
    ensures var m := level.portalSurfaceMapping[quadIndex];
      !r.placed ==> |r.events| == if m.minPortalIndex < m.maxPortalIndex then m.maxPortalIndex - m.minPortalIndex else 0
  {
    var m := level.portalSurfaceMapping[quadIndex];
    var search := FindSurface(level.surfaceGenerate, at, m.minPortalIndex, m.maxPortalIndex);
    if search.found.Some? then
      var scene' := Scene(
        s.portals[portalIndex := s.portals[portalIndex].(transform := at)],
        CollisionScene(
          s.collision.portalTransforms[portalIndex := Some(portalIndex)],
          s.collision.portalRooms[portalIndex := roomIndex]));
      Placement(true, scene', Attempts(search.tried) + [PlaySound(PortalOpen2)])
    else
      Placement(false, s, Attempts(search.tried))
  }

  datatype Ray = Ray(origin: Vec3, dir: Vec3)

  datatype RaycastHit = RaycastHit(at: Vec3, normal: Vec3, roomIndex: int, hitObject: int)

  /** `collisionSceneRaycast(scene, roomIndex, ray, maxDistance)`. */
  type Raycaster = (Scene, int, Ray, real) -> Option<RaycastHit>

  const MaxRaycastDistance: real := 1000000.0

  /** Below this |normal.y| a surface counts as a wall and the portal is oriented by world up. */
  const WallNormalLimit: real := 0.8

  /**
   Where `sceneFirePortal` tries to put portal `portalIndex` for a hit: at the
   hit point, unit scale, facing along the normal (portal 1: against it), up
   being world up on walls and the player's up on floors and ceilings.
   */
  function PortalLocation(hit: RaycastHit, playerUp: Vec3, portalIndex: int): (t: Transform)
    ensures t.position == hit.at && t.scale == One
    ensures portalIndex == 1 ==> t.rotation.forward == Negate(hit.normal)
    ensures portalIndex != 1 ==> t.rotation.forward == hit.normal
    ensures Abs(hit.normal.y) < WallNormalLimit ==> t.rotation.up == WorldUp
    ensures Abs(hit.normal.y) >= WallNormalLimit ==> t.rotation.up == playerUp
  {
    var direction := if portalIndex == 1 then Negate(hit.normal) else hit.normal;
    var up := if Abs(hit.normal.y) < WallNormalLimit then WorldUp else playerUp;
    Transform(hit.at, Look(direction, up), One)
  }

  /** Portals 0 and 1 fired at the same hit share position and up and face opposite ways. */
  lemma PortalPairFacesOpposite(hit: RaycastHit, playerUp: Vec3)
    ensures var t0 := PortalLocation(hit, playerUp, 0);
      var t1 := PortalLocation(hit, playerUp, 1);
      && t0.position == t1.position
      && t0.rotation.up == t1.rotation.up
      && t1.rotation.forward == Negate(t0.rotation.forward)
      && t0.rotation.forward == Negate(t1.rotation.forward)
  {
  }

  /** `sceneFirePortal`. */
  function FirePortal(s: Scene, level: Level, raycast: Raycaster, ray: Ray, playerUp: Vec3, portalIndex: int, roomIndex: int): (r: Placement)
    requires s.Valid() && level.Valid()
    requires 0 <= portalIndex < 2
    ensures r.scene.Valid()
    ensures raycast(s, roomIndex, ray, MaxRaycastDistance).None? ==> r == Placement(false, s, [])
    ensures var hit := raycast(s, roomIndex, ray, MaxRaycastDistance);
      hit.Some? && level.quadIndex(hit.value.hitObject) == -1 ==> r == Placement(false, s, [])
    ensures var hit := raycast(s, roomIndex, ray, MaxRaycastDistance);
      r.placed ==>
        && hit.Some?
        && level.quadIndex(hit.value.hitObject) != -1
        && r.scene.portals[portalIndex].transform == PortalLocation(hit.value, playerUp, portalIndex)
        && r.scene.collision.portalTransforms[portalIndex] == Some(portalIndex)
        && r.scene.collision.portalRooms[portalIndex] == hit.value.roomIndex
    ensures !r.placed ==> r.scene == s
    ensures SameEntries(s, r.scene, 1 - portalIndex)
    ensures forall e :: e in r.events ==> e.TrySurface? || e == PlaySound(PortalOpen2)
    // placed exactly when the hit is on a quad and one of its slots fits the portal at the hit
    ensures var hit := raycast(s, roomIndex, ray, MaxRaycastDistance);
      r.placed <==>
        && hit.Some?
        && level.quadIndex(hit.value.hitObject) != -1
        && var m := level.portalSurfaceMapping[level.quadIndex(hit.value.hitObject)];
           exists i :: m.minPortalIndex <= i < m.maxPortalIndex && level.surfaceGenerate(i, PortalLocation(hit.value, playerUp, portalIndex))
    // every quad hit is handed to the placement of the portal at the hit's location, in the hit's room
    ensures var hit := raycast(s, roomIndex, ray, MaxRaycastDistance);
      hit.Some? && level.quadIndex(hit.value.hitObject) != -1 ==>
        r == OpenPortal(s, level, PortalLocation(hit.value, playerUp, portalIndex), portalIndex,
                        level.quadIndex(hit.value.hitObject), hit.value.roomIndex)
  {
    var hit := raycast(s, roomIndex, ray, MaxRaycastDistance);
    if hit.None? then Placement(false, s, [])
    else
      var quadIndex := level.quadIndex(hit.value.hitObject);
      if quadIndex == -1 then Placement(false, s, [])
      else OpenPortal(s, level, PortalLocation(hit.value, playerUp, portalIndex), portalIndex, quadIndex, hit.value.roomIndex)
  }

  /**
   The player's aim after `playerUpdate`: the ray from the body along its
   facing and the body's up vector (the quaternion rotations that produce
   them are not modelled), and the room the body is in.
   */
  datatype Aim = Aim(ray: Ray, playerUp: Vec3, currentRoom: int)

  /** Controller state this frame: Z pressed, and R or L pressed. */
  datatype Buttons = Buttons(zTrig: bool, rOrLTrig: bool)

  datatype Step = Step(scene: Scene, events: seq<SceneEvent>)

  /** `sceneCheckPortals`: Z fires portal 0, then R/L fires portal 1. */
  function CheckPortals(s: Scene, level: Level, raycast: Raycaster, aim: Aim, buttons: Buttons): (r: Step)
    requires s.Valid() && level.Valid()
    ensures r.scene.Valid()
    ensures !buttons.zTrig ==> SameEntries(s, r.scene, 0)
    ensures !buttons.rOrLTrig ==> SameEntries(s, r.scene, 1)
    ensures !buttons.zTrig && !buttons.rOrLTrig ==> r == Step(s, [])
    ensures forall e :: e in r.events ==> e.TrySurface? || e == PlaySound(PortalOpen2)
    // portal 0's attempt, on the scene as it was, comes first in the trace
    ensures buttons.zTrig ==> FirePortal(s, level, raycast, aim.ray, aim.playerUp, 0, aim.currentRoom).events <= r.events
    // Z alone: the frame is exactly portal 0's attempt
    ensures buttons.zTrig && !buttons.rOrLTrig ==>
      var p0 := FirePortal(s, level, raycast, aim.ray, aim.playerUp, 0, aim.currentRoom);
      r == Step(p0.scene, p0.events)
    // nothing but the two attempts' events: their lengths add up to the trace's
    ensures var p0 := FirePortal(s, level, raycast, aim.ray, aim.playerUp, 0, aim.currentRoom);
      var before := if buttons.zTrig then p0.scene else s;
      var p1 := FirePortal(before, level, raycast, aim.ray, aim.playerUp, 1, aim.currentRoom);
      |r.events| == (if buttons.zTrig then |p0.events| else 0) + (if buttons.rOrLTrig then |p1.events| else 0)
    // portal 1 is fired on the scene that portal 0's attempt left behind
    ensures buttons.rOrLTrig ==>
      var before := if buttons.zTrig then FirePortal(s, level, raycast, aim.ray, aim.playerUp, 0, aim.currentRoom).scene else s;
      var p := FirePortal(before, level, raycast, aim.ray, aim.playerUp, 1, aim.currentRoom);
      r.scene == p.scene && |p.events| <= |r.events| && r.events[|r.events| - |p.events|..] == p.events
  {
    var afterZ :=
      if buttons.zTrig then
        var p := FirePortal(s, level, raycast, aim.ray, aim.playerUp, 0, aim.currentRoom);
        Step(p.scene, p.events)
      else Step(s, []);
    if buttons.rOrLTrig then
      var p := FirePortal(afterZ.scene, level, raycast, aim.ray, aim.playerUp, 1, aim.currentRoom);
      Step(p.scene, afterZ.events + p.events)
    else afterZ
  }

  /**
   The scenario of a wall with three candidate slots of which only the third
   fits: portal 0 opens at the hit point after three attempts and one sound.
   */
  lemma ThirdSlotScenario(s: Scene, level: Level, raycast: Raycaster, ray: Ray, playerUp: Vec3, roomIndex: int, hit: RaycastHit)
    requires s.Valid() && level.Valid()
    requires raycast(s, roomIndex, ray, MaxRaycastDistance) == Some(hit)
    requires hit.normal == Vec3(1.0, 0.0, 0.0)
    requires level.quadIndex(hit.hitObject) != -1
    requires var m := level.portalSurfaceMapping[level.quadIndex(hit.hitObject)];
      var at := PortalLocation(hit, playerUp, 0);
      && m.maxPortalIndex == m.minPortalIndex + 3
      && !level.surfaceGenerate(m.minPortalIndex, at)
      && !level.surfaceGenerate(m.minPortalIndex + 1, at)
      && level.surfaceGenerate(m.minPortalIndex + 2, at)
    ensures var r := FirePortal(s, level, raycast, ray, playerUp, 0, roomIndex);
      var lo := level.portalSurfaceMapping[level.quadIndex(hit.hitObject)].minPortalIndex;
      && r.placed
      && r.scene.portals[0].transform.position == hit.at
      && r.scene.portals[0].transform.rotation == Look(hit.normal, WorldUp)
      && r.events == [TrySurface(lo), TrySurface(lo + 1), TrySurface(lo + 2), PlaySound(PortalOpen2)]
  {
  }
}

=== FILE: scene_render.dfy ===
/**
 The portal pass of `sceneRenderWithProperties` (`src/scene/scene.c`):
 which portals get a far-side render, with which counterpart, in which
 order. Room visibility is an oracle; the render calls are the output.
 */
module SceneRender {
  import opened Wrappers
  import opened Geometry
  import opened Scene

  /** A `portalRender` call: the portal, and its counterpart or null. */
  datatype PortalRender = PortalRender(portal: int, counterpart: Option<int>)

  /**
   The portal the pass visits first (`closerPortal` before the loop): portal 0
   when it is strictly farther from the camera than portal 1, otherwise portal 1.
   */
  function FirstVisited(s: Scene, camera: Vec3): (first: int)
    requires s.Valid()
    ensures first == 0 || first == 1
    ensures DistSqrd(camera, s.portals[first].transform.position) >= DistSqrd(camera, s.portals[1 - first].transform.position)
    ensures DistSqrd(camera, s.portals[0].transform.position) == DistSqrd(camera, s.portals[1].transform.position) ==> first == 1
  {
    if DistSqrd(camera, s.portals[0].transform.position) > DistSqrd(camera, s.portals[1].transform.position) then 0 else 1
  }

  /** The three conditions under which portal `p` is rendered. */
  predicate Renders(s: Scene, fromPortalIndex: int, roomVisible: int -> bool, p: int)
    requires s.Valid() && 0 <= p < 2
  {
    && s.IsOpen(p)
    && fromPortalIndex != p
    && roomVisible(s.collision.portalRooms[p])
  }

  /** The counterpart handed to `portalRender`: the other portal if open, else null. */
  function Counterpart(s: Scene, p: int): Option<int>
    requires s.Valid() && 0 <= p < 2
  {
    if s.IsOpen(1 - p) then Some(1 - p) else None
  }

  predicate Proper(s: Scene, fromPortalIndex: int, roomVisible: int -> bool, call: PortalRender) {
    && s.Valid()
    && 0 <= call.portal < 2
    && Renders(s, fromPortalIndex, roomVisible, call.portal)
    && call.counterpart == Counterpart(s, call.portal)
  }

  /**
   The portal loop of `sceneRenderWithProperties`: each portal is rendered at
   most once, exactly when it passes the three conditions, with the right
   counterpart; when both are, the first visited goes first.
   */
  method RenderPortals(s: Scene, camera: Vec3, fromPortalIndex: int, roomVisible: int -> bool) returns (calls: seq<PortalRender>)
    requires s.Valid()
    ensures forall k :: 0 <= k < |calls| ==> Proper(s, fromPortalIndex, roomVisible, calls[k])
    ensures forall p :: 0 <= p < 2 && Renders(s, fromPortalIndex, roomVisible, p) ==>
      exists k :: 0 <= k < |calls| && calls[k].portal == p
    ensures forall i, j :: 0 <= i < j < |calls| ==> calls[i].portal != calls[j].portal
    ensures |calls| <= 2
    ensures |calls| == 2 ==> calls[0].portal == FirstVisited(s, camera)
  {
    var first := FirstVisited(s, camera);
    var closerPortal := first;
    var otherPortal := 1 - closerPortal;
    calls := [];
    var i := 0;
    while i < 2
      invariant 0 <= i <= 2
      invariant closerPortal == if i == 1 then 1 - first else first
      invariant otherPortal == 1 - closerPortal
      invariant |calls| <= i
      invariant forall k :: 0 <= k < |calls| ==> Proper(s, fromPortalIndex, roomVisible, calls[k])
      invariant i == 1 ==> forall k :: 0 <= k < |calls| ==> calls[k].portal == first
      invariant i >= 1 && Renders(s, fromPortalIndex, roomVisible, first) ==> |calls| >= 1 && calls[0].portal == first
      invariant i == 2 && Renders(s, fromPortalIndex, roomVisible, 1 - first) ==> |calls| >= 1 && calls[|calls| - 1].portal == 1 - first
      invariant i == 2 && |calls| == 2 ==> calls[0].portal == first && calls[1].portal == 1 - first
      invariant i == 2 && |calls| == 1 ==> calls[0].portal == first || calls[0].portal == 1 - first
    {
      if s.collision.portalTransforms[closerPortal].Some?
        && fromPortalIndex != closerPortal
        && roomVisible(s.collision.portalRooms[closerPortal])
      {
        var counterpart := if s.collision.portalTransforms[otherPortal].Some? then Some(otherPortal) else None;
        calls := calls + [PortalRender(closerPortal, counterpart)];
      }
      closerPortal := 1 - closerPortal;
      otherPortal := 1 - otherPortal;
      i := i + 1;
    }
    // each index is either the first visited or the second
    assert {0, 1} == {first, 1 - first};
  }
}

=== FILE: scene_update.dfy ===
/**
 The per-frame order of operations of `sceneUpdate` (`src/scene/scene.c`).
 Subsystem updates are calls into code outside the model; they appear in
 the returned trace, with portal firing in its place among them.
 */
module SceneUpdate {
  import opened Scene

  /** How many cubes, buttons and doors the scene owns. */
  datatype Entities = Entities(cubeCount: nat, buttonCount: nat, doorCount: nat)

  /** The stage of the frame an event belongs to, in the fixed update order. */
  function Phase(e: SceneEvent): nat {
    match e
    case SignalsReset => 0
    case PlayerUpdate => 1
    case TrySurface(_) => 2
    case PlaySound(_) => 2
    case CubeUpdate(_) => 3
    case ButtonUpdate(_) => 4
    case DoorUpdate(_) => 5
    case UpdateDynamics => 6
    case CheckTriggers => 7
    case CutsceneRunnerUpdate => 8
  }

  /** The trace never goes back to an earlier stage. */
  predicate PhaseOrdered(t: seq<SceneEvent>) {
    forall i, j :: 0 <= i < j < |t| ==> Phase(t[i]) <= Phase(t[j])
  }

  /** Portal firing's events sit right after the signal reset and the player update. */
  predicate FiringAfterPlayer(t: seq<SceneEvent>, check: seq<SceneEvent>) {
    2 + |check| <= |t| && t[2..2 + |check|] == check
  }

  /** Each single step, and the update of every cube, button and door, occurs exactly once. */
  predicate EachOnce(t: seq<SceneEvent>, entities: Entities) {
    && multiset(t)[SignalsReset] == 1
    && multiset(t)[PlayerUpdate] == 1
    && multiset(t)[UpdateDynamics] == 1
    && multiset(t)[CheckTriggers] == 1
    && multiset(t)[CutsceneRunnerUpdate] == 1
    && (forall k :: 0 <= k < entities.cubeCount ==> multiset(t)[CubeUpdate(k)] == 1)
    && (forall k :: 0 <= k < entities.buttonCount ==> multiset(t)[ButtonUpdate(k)] == 1)
    && (forall k :: 0 <= k < entities.doorCount ==> multiset(t)[DoorUpdate(k)] == 1)
  }

  /** No cube, button or door outside the scene's own is updated. */
  predicate IndicesInRange(t: seq<SceneEvent>, entities: Entities) {
    && (forall e :: e in t && e.CubeUpdate? ==> 0 <= e.cube < entities.cubeCount)
    && (forall e :: e in t && e.ButtonUpdate? ==> 0 <= e.button < entities.buttonCount)
    && (forall e :: e in t && e.DoorUpdate? ==> 0 <= e.door < entities.doorCount)
  }

  /** Cubes, buttons and doors are each updated in ascending index order. */
  predicate BlocksAscend(t: seq<SceneEvent>) {
    && (forall i, j :: 0 <= i < j < |t| && t[i].CubeUpdate? && t[j].CubeUpdate? ==> t[i].cube < t[j].cube)
    && (forall i, j :: 0 <= i < j < |t| && t[i].ButtonUpdate? && t[j].ButtonUpdate? ==> t[i].button < t[j].button)
    && (forall i, j :: 0 <= i < j < |t| && t[i].DoorUpdate? && t[j].DoorUpdate? ==> t[i].door < t[j].door)
  }

  /** The trace of one frame, given the side effects of portal firing. */
  function FrameTrace(check: seq<SceneEvent>, entities: Entities): seq<SceneEvent> {
    [SignalsReset, PlayerUpdate] + check
      + seq(entities.cubeCount, i => CubeUpdate(i))
      + seq(entities.buttonCount, i => ButtonUpdate(i))
      + seq(entities.doorCount, i => DoorUpdate(i))
      + [UpdateDynamics, CheckTriggers, CutsceneRunnerUpdate]
  }

  /** `sceneUpdate`, frame timing aside. */
  function Update(s: Scene, level: Level, raycast: Raycaster, aim: Aim, buttons: Buttons, entities: Entities): (r: Step)
    requires s.Valid() && level.Valid()
    ensures r.scene.Valid()
    ensures PhaseOrdered(r.events)
    ensures EachOnce(r.events, entities)
    ensures IndicesInRange(r.events, entities)
    ensures BlocksAscend(r.events)
    // nothing but the five single steps, portal firing's events and one update per entity
    ensures |r.events| == 5 + |CheckPortals(s, level, raycast, aim, buttons).events|
      + entities.cubeCount + entities.buttonCount + entities.doorCount
    // the portal state is what portal firing left, and its side effects sit right after the player update
    ensures var check := CheckPortals(s, level, raycast, aim, buttons);
      && r.scene == check.scene
      && FiringAfterPlayer(r.events, check.events)
  {
    var check := CheckPortals(s, level, raycast, aim, buttons);
    TraceOrdered(check.events, entities);
    TraceCounts(check.events, entities);
    TraceRanges(check.events, entities);
    TraceSlice(check.events, entities);
    TraceAscending(check.events, entities);
    TraceLength(check.events, entities);
    Step(check.scene, FrameTrace(check.events, entities))
  }

  lemma TraceOrdered(check: seq<SceneEvent>, entities: Entities)
    requires forall e :: e in check ==> e.TrySurface? || e.PlaySound?
    ensures PhaseOrdered(FrameTrace(check, entities))
  {
  }

  /** `f` numbers its events without repetition: each index occurs once. */
  lemma {:induction false} NumberedOnce(n: nat, f: int -> SceneEvent, k: int)
    requires forall i, j :: f(i) == f(j) ==> i == j
    requires 0 <= k < n
    ensures multiset(seq(n, f))[f(k)] == 1
  {
    var t := seq(n, f);
    var t' := seq(n - 1, f);
    assert t == t' + [f(n - 1)];
    if k < n - 1 {
      NumberedOnce(n - 1, f, k);
    } else {
      assert f(k) !in t' by {
        forall i | 0 <= i < n - 1
          ensures t'[i] != f(k)
        {
        }
      }
    }
  }

  /** An event `f` never produces is absent from its numbered sequence. */
  lemma Absent(n: nat, f: int -> SceneEvent, x: SceneEvent)
    requires forall i :: 0 <= i < n ==> f(i) != x
    ensures multiset(seq(n, f))[x] == 0
  {
  }

  /** How often `x` occurs in a frame's trace, block by block. */
  lemma CountByBlock(check: seq<SceneEvent>, entities: Entities, x: SceneEvent)
    ensures multiset(FrameTrace(check, entities))[x] ==
      multiset([SignalsReset, PlayerUpdate])[x] + multiset(check)[x]
      + multiset(seq(entities.cubeCount, i => CubeUpdate(i)))[x]
      + multiset(seq(entities.buttonCount, i => ButtonUpdate(i)))[x]
      + multiset(seq(entities.doorCount, i => DoorUpdate(i)))[x]
      + multiset([UpdateDynamics, CheckTriggers, CutsceneRunnerUpdate])[x]
  {
  }

  /** A subsystem step that is not numbered occurs once in the frame. */
  lemma SingletonOnce(check: seq<SceneEvent>, entities: Entities, x: SceneEvent)
    requires forall e :: e in check ==> e.TrySurface? || e.PlaySound?
    requires x in {SignalsReset, PlayerUpdate, UpdateDynamics, CheckTriggers, CutsceneRunnerUpdate}
    ensures multiset(FrameTrace(check, entities))[x] == 1
  {
    CountByBlock(check, entities, x);
    Absent(entities.cubeCount, i => CubeUpdate(i), x);
    Absent(entities.buttonCount, i => ButtonUpdate(i), x);
    Absent(entities.doorCount, i => DoorUpdate(i), x);
    assert x !in check;
  }

  lemma TraceCounts(check: seq<SceneEvent>, entities: Entities)
    requires forall e :: e in check ==> e.TrySurface? || e.PlaySound?
    ensures EachOnce(FrameTrace(check, entities), entities)
  {
    SingletonOnce(check, entities, SignalsReset);
    SingletonOnce(check, entities, PlayerUpdate);
    SingletonOnce(check, entities, UpdateDynamics);
    SingletonOnce(check, entities, CheckTriggers);
    SingletonOnce(check, entities, CutsceneRunnerUpdate);
    forall k | 0 <= k < entities.cubeCount
      ensures multiset(FrameTrace(check, entities))[CubeUpdate(k)] == 1
    {
      CubeOnce(check, entities, k);
    }
    forall k | 0 <= k < entities.buttonCount
      ensures multiset(FrameTrace(check, entities))[ButtonUpdate(k)] == 1
    {
      ButtonOnce(check, entities, k);
    }
    forall k | 0 <= k < entities.doorCount
      ensures multiset(FrameTrace(check, entities))[DoorUpdate(k)] == 1
    {
      DoorOnce(check, entities, k);
    }
  }

  lemma CubeOnce(check: seq<SceneEvent>, entities: Entities, k: int)
    requires forall e :: e in check ==> e.TrySurface? || e.PlaySound?
    requires 0 <= k < entities.cubeCount
    ensures multiset(FrameTrace(check, entities))[CubeUpdate(k)] == 1
  {
    CountByBlock(check, entities, CubeUpdate(k));
    NumberedOnce(entities.cubeCount, i => CubeUpdate(i), k);
    Absent(entities.buttonCount, i => ButtonUpdate(i), CubeUpdate(k));
    Absent(entities.doorCount, i => DoorUpdate(i), CubeUpdate(k));
    assert CubeUpdate(k) !in check;
  }

  lemma ButtonOnce(check: seq<SceneEvent>, entities: Entities, k: int)
    requires forall e :: e in check ==> e.TrySurface? || e.PlaySound?
    requires 0 <= k < entities.buttonCount
    ensures multiset(FrameTrace(check, entities))[ButtonUpdate(k)] == 1
  {
    CountByBlock(check, entities, ButtonUpdate(k));
    NumberedOnce(entities.buttonCount, i => ButtonUpdate(i), k);
    Absent(entities.cubeCount, i => CubeUpdate(i), ButtonUpdate(k));
    Absent(entities.doorCount, i => DoorUpdate(i), ButtonUpdate(k));
    assert ButtonUpdate(k) !in check;
  }

  lemma DoorOnce(check: seq<SceneEvent>, entities: Entities, k: int)
    requires forall e :: e in check ==> e.TrySurface? || e.PlaySound?
    requires 0 <= k < entities.doorCount
    ensures multiset(FrameTrace(check, entities))[DoorUpdate(k)] == 1
  {
    CountByBlock(check, entities, DoorUpdate(k));
    NumberedOnce(entities.doorCount, i => DoorUpdate(i), k);
    Absent(entities.cubeCount, i => CubeUpdate(i), DoorUpdate(k));
    Absent(entities.buttonCount, i => ButtonUpdate(i), DoorUpdate(k));
    assert DoorUpdate(k) !in check;
  }

  lemma TraceSlice(check: seq<SceneEvent>, entities: Entities)
    ensures FiringAfterPlayer(FrameTrace(check, entities), check)
  {
  }

  /** The frame holds the five single steps, portal firing's events and one update per entity. */
  lemma TraceLength(check: seq<SceneEvent>, entities: Entities)
    ensures |FrameTrace(check, entities)| ==
      5 + |check| + entities.cubeCount + entities.buttonCount + entities.doorCount
  {
  }

  /**
   Where each numbered update sits: the cube block starts right after portal
   firing, the buttons follow the cubes and the doors the buttons.
   */
  lemma TracePositions(check: seq<SceneEvent>, entities: Entities)
    requires forall e :: e in check ==> e.TrySurface? || e.PlaySound?
    ensures var t := FrameTrace(check, entities);
      var c0 := 2 + |check|;
      var b0 := c0 + entities.cubeCount;
      var d0 := b0 + entities.buttonCount;
      && (forall p :: 0 <= p < |t| && t[p].CubeUpdate? ==> t[p].cube == p - c0)
      && (forall p :: 0 <= p < |t| && t[p].ButtonUpdate? ==> t[p].button == p - b0)
      && (forall p :: 0 <= p < |t| && t[p].DoorUpdate? ==> t[p].door == p - d0)
  {
    var t := FrameTrace(check, entities);
    var head := [SignalsReset, PlayerUpdate] + check;
    var cubes := seq(entities.cubeCount, i => CubeUpdate(i));
    var buttons := seq(entities.buttonCount, i => ButtonUpdate(i));
    var doors := seq(entities.doorCount, i => DoorUpdate(i));
    var c0 := |head|;
    var b0 := c0 + |cubes|;
    var d0 := b0 + |buttons|;
    var e0 := d0 + |doors|;
    assert t == head + cubes + buttons + doors + [UpdateDynamics, CheckTriggers, CutsceneRunnerUpdate];
    forall p | 0 <= p < |t|
      ensures t[p].CubeUpdate? ==> t[p].cube == p - c0
      ensures t[p].ButtonUpdate? ==> t[p].button == p - b0
      ensures t[p].DoorUpdate? ==> t[p].door == p - d0
    {
      if p < c0 {
        assert t[p] == head[p];
        if p >= 2 {
          assert head[p] == check[p - 2];
          assert check[p - 2] in check;
        }
      } else if p < b0 {
        assert t[p] == cubes[p - c0];
      } else if p < d0 {
        assert t[p] == buttons[p - b0];
      } else if p < e0 {
        assert t[p] == doors[p - d0];
      }
    }
  }

  /** Within each numbered block the indices ascend. */
  lemma TraceAscending(check: seq<SceneEvent>, entities: Entities)
    requires forall e :: e in check ==> e.TrySurface? || e.PlaySound?
    ensures BlocksAscend(FrameTrace(check, entities))
  {
    TracePositions(check, entities);
  }

  lemma TraceRanges(check: seq<SceneEvent>, entities: Entities)
    requires forall e :: e in check ==> e.TrySurface? || e.PlaySound?
    ensures IndicesInRange(FrameTrace(check, entities), entities)
  {
  }
}

=== FILE: trigger_listener.dfy ===
/**
 Trigger volumes (`src/scene/trigger_listener.c`): a kinematic box sized from
 a level trigger, which classifies the object that entered it and sends the
 signals and cutscene calls of the trigger's rules, in declared order.
 */
module TriggerListener {
  import opened Geometry

  datatype ObjectTriggerType = TypeNone | TypePlayer | TypeCube

  datatype Box = Box(min: Vec3, max: Vec3)

  /** One rule of a trigger; `signalIndex == -1` means "no signal". */
  datatype ObjectTriggerInfo = ObjectTriggerInfo(objectType: ObjectTriggerType, signalIndex: int, cutsceneIndex: int)

  datatype Trigger = Trigger(box: Box, triggers: seq<ObjectTriggerInfo>)

  const NoSignal: int := -1

  datatype ShapeType = ShapeBox

  /**
   The runtime listener. `sideLength` is the box collider's half-extent on
   each axis and `position` the body's centre; `hasTriggerCallback` records
   that `triggerTrigger` is installed with the listener as its data.
   */
  datatype Listener = Listener(
    shape: ShapeType,
    sideLength: Vec3,
    bounce: real,
    friction: real,
    position: Vec3,
    kinematic: bool,
    hasTriggerCallback: bool,
    trigger: Trigger,
    triggerIndex: int)

  /** `collisionSceneAddDynamicObject` on the listener's collision object. */
  datatype InitEvent = AddDynamicObject(triggerIndex: int)

  datatype Initialised = Initialised(listener: Listener, events: seq<InitEvent>)

  /** `triggerInit`. */
  function Init(trigger: Trigger, triggerIndex: int): (r: Initialised)
    ensures var l := r.listener; var b := trigger.box;
      && 2.0 * l.sideLength.x == b.max.x - b.min.x
      && 2.0 * l.sideLength.y == b.max.y - b.min.y
      && 2.0 * l.sideLength.z == b.max.z - b.min.z
    ensures var l := r.listener; var b := trigger.box;
      && 2.0 * l.position.x == b.max.x + b.min.x
      && 2.0 * l.position.y == b.max.y + b.min.y
      && 2.0 * l.position.z == b.max.z + b.min.z
    ensures r.listener.shape == ShapeBox && r.listener.bounce == 0.0 && r.listener.friction == 0.0
    ensures r.listener.kinematic && r.listener.hasTriggerCallback
    ensures r.listener.trigger == trigger && r.listener.triggerIndex == triggerIndex
    ensures r.events == [AddDynamicObject(triggerIndex)]
  {
    var half := Scale(Sub(trigger.box.max, trigger.box.min), 0.5);
    var centre := Scale(Add(trigger.box.max, trigger.box.min), 0.5);
    Initialised(Listener(ShapeBox, half, 0.0, 0.0, centre, true, true, trigger, triggerIndex), [AddDynamicObject(triggerIndex)])
  }

  /** Centre and half-extents recover the trigger's box. */
  lemma InitRecoversBox(trigger: Trigger, triggerIndex: int)
    ensures var l := Init(trigger, triggerIndex).listener;
      && Sub(l.position, l.sideLength) == trigger.box.min
      && Add(l.position, l.sideLength) == trigger.box.max
  {
  }

  /** The object entering the volume: whether its collider is the player's, the decor id of its collider, its position. */
  datatype CollisionObject = CollisionObject(isPlayerCollider: bool, decorId: int, position: Vec3)

  /** The values of `DECOR_TYPE_CUBE` and `DECOR_TYPE_CUBE_UNIMPORTANT`. */
  datatype DecorTypes = DecorTypes(cube: int, cubeUnimportant: int)

  /**
   `triggerDetermineType` as written: line 16 tests the bare constant
   `DECOR_TYPE_CUBE_UNIMPORTANT` instead of comparing it with the id.
   */
  function DetermineTypeAsWritten(o: CollisionObject, ids: DecorTypes): (t: ObjectTriggerType)
    ensures t == TypePlayer <==> o.isPlayerCollider
    ensures !o.isPlayerCollider && o.decorId == ids.cube ==> t == TypeCube
    ensures t == TypeNone <==> !o.isPlayerCollider && o.decorId != ids.cube && ids.cubeUnimportant == 0
    ensures !o.isPlayerCollider && ids.cubeUnimportant != 0 ==> t == TypeCube
  {
    if o.isPlayerCollider then TypePlayer
    else if o.decorId == ids.cube || ids.cubeUnimportant != 0 then TypeCube
    else TypeNone
  }

  /** `triggerDetermineType` as intended: both cube kinds are cubes, nothing else is. */
  function DetermineType(o: CollisionObject, ids: DecorTypes): (t: ObjectTriggerType)
    ensures o.isPlayerCollider ==> t == TypePlayer
    ensures t == TypeCube <==> !o.isPlayerCollider && (o.decorId == ids.cube || o.decorId == ids.cubeUnimportant)
    ensures t == TypeNone <==> !o.isPlayerCollider && o.decorId != ids.cube && o.decorId != ids.cubeUnimportant
  {
    if o.isPlayerCollider then TypePlayer
    else if o.decorId == ids.cube || o.decorId == ids.cubeUnimportant then TypeCube
    else TypeNone
  }

  /**
   Whatever the two constants are (as long as they differ), the written test
   classifies some object differently from the intended one: a non-cube decor
   object as a cube when the constant is nonzero, an unimportant cube as
   nothing when it is zero.
   */
  lemma AsWrittenMisclassifies(ids: DecorTypes)
    requires ids.cube != ids.cubeUnimportant
    ensures exists o :: DetermineTypeAsWritten(o, ids) != DetermineType(o, ids)
  {
    if ids.cubeUnimportant != 0 {
      var other := (if ids.cube < ids.cubeUnimportant then ids.cubeUnimportant else ids.cube) + 1;
      var o := CollisionObject(false, other, Vec3(0.0, 0.0, 0.0));
      assert DetermineTypeAsWritten(o, ids) == TypeCube;
      assert DetermineType(o, ids) == TypeNone;
    } else {
      var o := CollisionObject(false, ids.cubeUnimportant, Vec3(0.0, 0.0, 0.0));
      assert DetermineTypeAsWritten(o, ids) == TypeNone;
      assert DetermineType(o, ids) == TypeCube;
    }
  }

  /** The two classifications agree on the player and on ordinary cubes. */
  lemma AsWrittenAgreesOnPlayerAndCube(o: CollisionObject, ids: DecorTypes)
    requires o.isPlayerCollider || o.decorId == ids.cube
    ensures DetermineTypeAsWritten(o, ids) == DetermineType(o, ids)
  {
  }

  datatype TriggerEvent =
    | SignalSend(signal: int)
    | CutsceneTrigger(cutscene: int, context: int)

  /** What one rule does for an object of type `kind`. */
  function RuleEffects(rule: ObjectTriggerInfo, kind: ObjectTriggerType, triggerIndex: int): seq<TriggerEvent> {
    if rule.objectType == kind then
      (if rule.signalIndex != NoSignal then [SignalSend(rule.signalIndex)] else [])
      + [CutsceneTrigger(rule.cutsceneIndex, triggerIndex)]
    else []
  }

  /**
   The rule loop of `triggerTrigger`: it does what the reference `Effects`
   of the matching rules does, so each matching rule, in declared order,
   sends its signal (if any) and then triggers its cutscene.
   */
  function Dispatch(rules: seq<ObjectTriggerInfo>, kind: ObjectTriggerType, triggerIndex: int): (r: seq<TriggerEvent>)
    ensures r == Effects(Matching(rules, kind), triggerIndex)
    ensures |r| <= 2 * |rules|
    ensures forall e :: e in r && e.SignalSend? ==> e.signal != NoSignal
    ensures forall e :: e in r && e.CutsceneTrigger? ==> e.context == triggerIndex
    ensures r == [] <==> forall i :: 0 <= i < |rules| ==> rules[i].objectType != kind
  {
    if rules == [] then []
    else
      var rest := Dispatch(rules[1..], kind, triggerIndex);
      assert forall i :: 1 <= i < |rules| ==> rules[i] == rules[1..][i - 1];
      var tail := Matching(rules[1..], kind);
      if rules[0].objectType == kind then
        assert Matching(rules, kind) == [rules[0]] + tail;
        assert ([rules[0]] + tail)[1..] == tail;
        RuleEffects(rules[0], kind, triggerIndex) + rest
      else
        assert Matching(rules, kind) == tail;
        RuleEffects(rules[0], kind, triggerIndex) + rest
  }

  /** The rules whose filter is `kind`, in order. */
  function Matching(rules: seq<ObjectTriggerInfo>, kind: ObjectTriggerType): seq<ObjectTriggerInfo> {
    if rules == [] then []
    else (if rules[0].objectType == kind then [rules[0]] else []) + Matching(rules[1..], kind)
  }

  /** The cutscene indices of `rules`, in order. */
  function CutsceneIndices(rules: seq<ObjectTriggerInfo>): seq<int> {
    if rules == [] then [] else [rules[0].cutsceneIndex] + CutsceneIndices(rules[1..])
  }

  /** The signal indices of the rules that have one, in order. */
  function AssignedSignals(rules: seq<ObjectTriggerInfo>): seq<int> {
    if rules == [] then []
    else (if rules[0].signalIndex != NoSignal then [rules[0].signalIndex] else []) + AssignedSignals(rules[1..])
  }

  /** The cutscene calls of a trace, in order. */
  function CutsceneCalls(t: seq<TriggerEvent>): seq<int> {
    if t == [] then []
    else (if t[0].CutsceneTrigger? then [t[0].cutscene] else []) + CutsceneCalls(t[1..])
  }

  /** The signals sent in a trace, in order. */
  function SignalsSent(t: seq<TriggerEvent>): seq<int> {
    if t == [] then []
    else (if t[0].SignalSend? then [t[0].signal] else []) + SignalsSent(t[1..])
  }

  lemma {:induction false} CutsceneCallsAppend(a: seq<TriggerEvent>, b: seq<TriggerEvent>)
    ensures CutsceneCalls(a + b) == CutsceneCalls(a) + CutsceneCalls(b)
  {
    if a == [] {
      assert a + b == b;
    } else {
      assert (a + b)[0] == a[0];
      assert (a + b)[1..] == a[1..] + b;
      CutsceneCallsAppend(a[1..], b);
      assert CutsceneCalls(a + b) == (if a[0].CutsceneTrigger? then [a[0].cutscene] else []) + CutsceneCalls(a[1..] + b);
    }
  }

  lemma {:induction false} SignalsSentAppend(a: seq<TriggerEvent>, b: seq<TriggerEvent>)
    ensures SignalsSent(a + b) == SignalsSent(a) + SignalsSent(b)
  {
    if a == [] {
      assert a + b == b;
    } else {
      assert (a + b)[0] == a[0];
      assert (a + b)[1..] == a[1..] + b;
      SignalsSentAppend(a[1..], b);
      assert SignalsSent(a + b) == (if a[0].SignalSend? then [a[0].signal] else []) + SignalsSent(a[1..] + b);
    }
  }

  /** One cutscene call per matching rule, in declared order, duplicates included. */
  lemma {:induction false} DispatchCutscenes(rules: seq<ObjectTriggerInfo>, kind: ObjectTriggerType, triggerIndex: int)
    ensures CutsceneCalls(Dispatch(rules, kind, triggerIndex)) == CutsceneIndices(Matching(rules, kind))
  {
    if rules != [] {
      var head := RuleEffects(rules[0], kind, triggerIndex);
      CutsceneCallsAppend(head, Dispatch(rules[1..], kind, triggerIndex));
      DispatchCutscenes(rules[1..], kind, triggerIndex);
      if rules[0].objectType == kind {
        assert CutsceneCalls(head) == [rules[0].cutsceneIndex] by {
          if rules[0].signalIndex != NoSignal {
            assert head[1..] == [CutsceneTrigger(rules[0].cutsceneIndex, triggerIndex)];
          }
        }
        assert Matching(rules, kind) == [rules[0]] + Matching(rules[1..], kind);
      } else {
        assert Matching(rules, kind) == Matching(rules[1..], kind);
      }
    }
  }

  /** Exactly the matching rules' assigned signals are sent, in declared order. */
  lemma {:induction false} DispatchSignals(rules: seq<ObjectTriggerInfo>, kind: ObjectTriggerType, triggerIndex: int)
    ensures SignalsSent(Dispatch(rules, kind, triggerIndex)) == AssignedSignals(Matching(rules, kind))
  {
    if rules != [] {
      var head := RuleEffects(rules[0], kind, triggerIndex);
      SignalsSentAppend(head, Dispatch(rules[1..], kind, triggerIndex));
      DispatchSignals(rules[1..], kind, triggerIndex);
      if rules[0].objectType == kind {
        if rules[0].signalIndex != NoSignal {
          assert head[1..] == [CutsceneTrigger(rules[0].cutsceneIndex, triggerIndex)];
          assert SignalsSent(head) == [rules[0].signalIndex];
        } else {
          assert SignalsSent(head) == [];
        }
        assert Matching(rules, kind) == [rules[0]] + Matching(rules[1..], kind);
      } else {
        assert Matching(rules, kind) == Matching(rules[1..], kind);
      }
    }
  }

  /**
   Reference definition of what a list of already-matched rules does: each
   rule in turn sends its signal (when it has one) and then triggers its
   cutscene, before the next rule acts.
   */
  function Effects(matching: seq<ObjectTriggerInfo>, triggerIndex: int): seq<TriggerEvent> {
    if matching == [] then []
    else
      var rule := matching[0];
      (if rule.signalIndex != NoSignal then [SignalSend(rule.signalIndex)] else [])
      + [CutsceneTrigger(rule.cutsceneIndex, triggerIndex)]
      + Effects(matching[1..], triggerIndex)
  }

  /** The object is within the half-extents of the centre on every axis (boundary included). */
  predicate Contained(l: Listener, p: Vec3) {
    var offset := Sub(p, l.position);
    !(Abs(offset.x) > l.sideLength.x || Abs(offset.y) > l.sideLength.y || Abs(offset.z) > l.sideLength.z)
  }

  predicate InBox(b: Box, p: Vec3) {
    && b.min.x <= p.x <= b.max.x
    && b.min.y <= p.y <= b.max.y
    && b.min.z <= p.z <= b.max.z
  }

  /** For an initialised listener the containment test is membership in the trigger's closed box. */
  lemma ContainedIffInBox(trigger: Trigger, triggerIndex: int, p: Vec3)
    ensures Contained(Init(trigger, triggerIndex).listener, p) <==> InBox(trigger.box, p)
  {
  }

  /**
   What `triggerTrigger` does once the object has been classified as `kind`:
   nothing unless the object is contained; otherwise the matching rules act,
   one after another.
   */
  function TriggerAs(l: Listener, o: CollisionObject, kind: ObjectTriggerType): (r: seq<TriggerEvent>)
    ensures !Contained(l, o.position) ==> r == []
    ensures Contained(l, o.position) ==>
      && r == Effects(Matching(l.trigger.triggers, kind), l.triggerIndex)
      && CutsceneCalls(r) == CutsceneIndices(Matching(l.trigger.triggers, kind))
      && SignalsSent(r) == AssignedSignals(Matching(l.trigger.triggers, kind))
    ensures forall e :: e in r && e.CutsceneTrigger? ==> e.context == l.triggerIndex
  {
    if !Contained(l, o.position) then []
    else
      DispatchCutscenes(l.trigger.triggers, kind, l.triggerIndex);
      DispatchSignals(l.trigger.triggers, kind, l.triggerIndex);
      Dispatch(l.trigger.triggers, kind, l.triggerIndex)
  }

  /** `triggerTrigger` as written: the object is classified by the literal test. */
  function TriggerTrigger(l: Listener, o: CollisionObject, ids: DecorTypes): (r: seq<TriggerEvent>)
    ensures !Contained(l, o.position) ==> r == []
    ensures Contained(l, o.position) ==>
      r == Effects(Matching(l.trigger.triggers, DetermineTypeAsWritten(o, ids)), l.triggerIndex)
    ensures Contained(l, o.position) && !o.isPlayerCollider && ids.cubeUnimportant != 0 ==>
      r == Effects(Matching(l.trigger.triggers, TypeCube), l.triggerIndex)
  {
    TriggerAs(l, o, DetermineTypeAsWritten(o, ids))
  }

  /** `triggerTrigger` with the intended classification. */
  function TriggerTriggerIntended(l: Listener, o: CollisionObject, ids: DecorTypes): (r: seq<TriggerEvent>)
    ensures !Contained(l, o.position) ==> r == []
    ensures Contained(l, o.position) ==>
      r == Effects(Matching(l.trigger.triggers, DetermineType(o, ids)), l.triggerIndex)
    ensures (Contained(l, o.position) && !o.isPlayerCollider
             && o.decorId != ids.cube && o.decorId != ids.cubeUnimportant) ==>
      r == Effects(Matching(l.trigger.triggers, TypeNone), l.triggerIndex)
  {
    TriggerAs(l, o, DetermineType(o, ids))
  }

  /**
   A contained decor object that is no cube at all fires a cube-only rule as
   written, and nothing under the intended classification.
   */
  lemma AsWrittenFiresCubeRule(l: Listener, o: CollisionObject, ids: DecorTypes, cutscene: int)
    requires Contained(l, o.position)
    requires !o.isPlayerCollider && ids.cubeUnimportant != 0
    requires o.decorId != ids.cube && o.decorId != ids.cubeUnimportant
    requires l.trigger.triggers == [ObjectTriggerInfo(TypeCube, NoSignal, cutscene)]
    ensures TriggerTrigger(l, o, ids) == [CutsceneTrigger(cutscene, l.triggerIndex)]
    ensures TriggerTriggerIntended(l, o, ids) == []
  {
  }

  /** Outside the trigger's box on a single axis is enough to suppress every effect. */
  lemma OutsideBoxSuppresses(trigger: Trigger, triggerIndex: int, o: CollisionObject, ids: DecorTypes)
    requires !InBox(trigger.box, o.position)
    ensures TriggerTrigger(Init(trigger, triggerIndex).listener, o, ids) == []
    ensures TriggerTriggerIntended(Init(trigger, triggerIndex).listener, o, ids) == []
  {
  }
}

=== FILE: wrappers.dfy ===
/** An optional value: stands for the nullable pointers of the game code. */
module Wrappers {

  datatype Option<+T> = None | Some(value: T)
}
